=== FILE: README.md ===
# Study-session tracker: a Dafny model of its session store

The tracker keeps study sessions in one SQLite table, `sessionstable`. Each row has five
columns: session name, subject, description, status and date. A Streamlit page has four
menu entries, Create, Read, Update and Delete, all inside `main()`. Each run of `main()`
first calls `create_table` (`CREATE TABLE IF NOT EXISTS`). It then reads or writes the
table through five more functions. Each of those functions opens the database file and runs one SQL statement.
A function closes the file only when its statement succeeds. When the statement fails,
`view_all_data` returns `None` before the close, and the other functions raise out of it.

This project models that store and the plain logic of the four pages:

- `records.dfy` (module `Records`) defines a table row (`Row`) and the three statuses that
  the forms offer (`Status`, `StatusOptions`). It also models `list.index`, the lookup the
  Update form uses to preselect the stored status.
- `table.dfy` (module `Table`) gives the meaning of each SQL statement as a function on the
  sequence of rows: `InsertRow`, `UpdateRows`, `DeleteRows` and `UniqueSessions`. It also
  holds the lemmas that relate these functions.
- `store.dfy` (module `Store`) holds the class `SessionStore`. Its fields are `hasTable`
  (does the table exist?) and `rows`. It has one method per database function.
  `AddData`, `UpdateData`, `DeleteData` and `ViewUniqueSessions` are specified by the
  matching `Table` function. `CreateTable` keeps the rows as they were and only makes the
  table exist. `ViewAllData` returns the rows themselves, stated as a multiset.
- `pages.dfy` (module `Pages`) covers the pages. It has the Create guard, the status-count
  aggregation (`value_counts`), the Update page's row selection, and one method per page.
  It also defines `WellFormed`, the table invariant that the pages keep.

Modelling choices:

- The `session` column can hold SQL NULL, so it is an `Option<string>`. `WHERE session = ?`
  never matches a NULL on either side (`Matches`). The Python comparison used on the
  Update page is different: there `None == None` holds (`SelectRows`).
- The status column is free TEXT, so it is a `string`. Only the forms restrict it to the
  three labels.
- Dates are opaque values. Nothing computes with them.
- SQL promises no row order, because neither SELECT has an ORDER BY. Read results are
  therefore stated as multisets and sets. The table's own order is the model's.
- A database file that does not have the table yet is part of the model. `view_all_data`
  turns the resulting error into `None`. The other functions do not catch it; they raise
  `sqlite3.OperationalError`. The write methods report that as `ok == false` with nothing
  changed, and `ViewUniqueSessions` returns `None` for it.
- Each page method models the run in which the page's button is pressed. Widget values are
  its parameters. A select box returns one of its options, or `None` when it has none
  (`Offered`).

## Model

| member | source | states |
|---|---|---|
| `Records.IndexOf` | main.py:147 | `list.index`: the first position holding the value, or `None` (ValueError) exactly when the value is absent |
| `Records.StatusIndex` | main.py:147 | the preselected status index exists exactly when the stored text is one of the three options, and it points at that text |
| `Records.ParseStatus` | main.py:96 | a stored text stands for a status exactly when it is one of the three options, and that status's label is the text |
| `Records.LabelIsKnown` | main.py:147 | every status label a form writes can be found again by the Update form, at its own position in the option list |
| `Table.Matches` | main.py:38-46 | `WHERE session = ?` never holds for a NULL key or a NULL session; when it holds, the row's session is the key |
| `Table.MatchCount` | main.py:46 | the number of rows `WHERE session = key` selects is at most the row count, and it is zero exactly when no row matches |
| `Table.InsertRow` | main.py:18-19 | INSERT adds exactly one copy of the new row, and every existing row keeps its multiplicity |
| `Table.Assign` | main.py:38 | the `SET` clause keeps the row's session and gives it the four new values; the row is left as it was exactly when it already held them |
| `Table.UpdateRows` | main.py:38-39 | UPDATE keeps the row count and every session value; matching rows get the four new values; every other row is unchanged |
| `Table.DeleteRows` | main.py:46 | DELETE leaves no matching row; every other row keeps its multiplicity; the count drops by exactly the number of matches |
| `Table.NameSet` | main.py:53 | the names `session IS NOT NULL AND session != ""` admits: never the empty name, only sessions some row carries, and every non-NULL, non-empty session of the table |
| `Table.UniqueSessions` | main.py:53 | SELECT DISTINCT lists each non-NULL, non-empty session name of the table exactly once, and nothing else |
| `Table.UpdateNoMatch` | main.py:38 | an update whose key matches no row leaves the table identical |
| `Table.DeleteNoMatch` | main.py:46 | a delete whose key matches no row leaves the table identical |
| `Table.UpdateIdempotent` | main.py:38 | running the same update twice gives the same table as running it once |
| `Table.DeleteIdempotent` | main.py:46 | after a delete no row matches the key, so a second delete changes nothing |
| `Table.UpdateKeepsNames` | main.py:38 | an update never changes the set of listed session names |
| `Table.DeleteRemovesName` | main.py:46 | a delete removes exactly its key from the set of listed names |
| `Table.UpdateThenDelete` | main.py:38-46 | updating a key and then deleting it leaves the same table as deleting it alone |
| `Table.InsertThenUpdate` | main.py:15-41 | after inserting a row and updating its session, the table holds that row with the four new values |
| `Store.SessionStore.constructor` | main.py:9 | a freshly opened database file has no table and no rows |
| `Store.SessionStore.CreateTable` | main.py:8-13 | afterwards the table exists and keeps every row it had, so a repeated call is a no-op |
| `Store.SessionStore.AddData` | main.py:15-21 | with the table present, the rows become the old rows plus one row of the five given values; without it, nothing changes |
| `Store.SessionStore.ViewAllData` | main.py:23-33 | returns `None` exactly when the table is missing (the caught error), and then no row is hidden because the table holds none; otherwise it returns every row, as a multiset |
| `Store.SessionStore.UpdateData` | main.py:35-41 | the rows become `UpdateRows` of the old rows, or stay unchanged when the table is missing |
| `Store.SessionStore.DeleteData` | main.py:43-48 | the rows become `DeleteRows` of the old rows, or stay unchanged when the table is missing |
| `Store.SessionStore.ViewUniqueSessions` | main.py:50-56 | returns `None` (standing for the uncaught error) exactly when the table is missing, and then there is no row whose name it leaves out; otherwise each non-NULL, non-empty name once, with no duplicates |
| `Store.MathHomeworkScenario` | main.py:15-48 | inserting "Math HW", marking it Completed a day later and deleting it leaves one row, then its updated version, then nothing |
| `Pages.CreateGuard` | main.py:99 | the Create guard `session and subject and description` holds exactly when none of the three texts is empty |
| `Pages.InsertKeepsWellFormed` | main.py:99-101 | a row that passed the Create guard keeps every session named and every status known |
| `Pages.UpdateKeepsWellFormed` | main.py:147-153 | an update that writes one of the three statuses keeps the table well formed |
| `Pages.DeleteKeepsWellFormed` | main.py:166-167 | a delete keeps the table well formed |
| `Pages.CreatePage` | main.py:82-104 | adds the row exactly when session, subject and description are all non-empty; otherwise the table is unchanged; keeps `WellFormed` |
| `Pages.KeysCons` | main.py:115 | the keys of a count table with one more entry in front are that entry's key plus the old keys |
| `Pages.BumpKeys` | main.py:115 | counting one more row with status `s` adds `s` to the keys and no other key |
| `Pages.BumpDistinct` | main.py:115 | counting one more row keeps every status on at most one entry |
| `Pages.BumpLookup` | main.py:115 | counting one more row with status `s` raises the count of `s` by one and leaves every other count alone |
| `Pages.BumpTotal` | main.py:115 | counting one more row raises the total by one and keeps every count positive |
| `Pages.LookupAt` | main.py:116 | with distinct keys, looking up an entry's status gives that entry's count |
| `Pages.LookupAbsent` | main.py:116 | a status that is not a key has count zero |
| `Pages.StatusCounts` | main.py:115-116 | `value_counts` gives each status at most one entry; every count is positive and equals the number of rows with that status; the counts sum to the row count |
| `Pages.StatusCountsKeys` | main.py:115-116 | a status has an entry exactly when some row carries it, and each entry's count is that status's number of rows |
| `Pages.CountStatusAppend` | main.py:115 | the count of a status in two listings put together is the sum of the two counts |
| `Pages.RemoveAt` | main.py:115 | taking one row out of a listing removes it from the multiset and lowers its status's count by one |
| `Pages.CountStatusPermutation` | main.py:108-115 | the count of a status is the same in any order of the listing |
| `Pages.ReadPage` | main.py:106-122 | writes nothing; shows the rows and their status counts exactly when the table is non-empty; each count equals the table's number of rows with that status |
| `Pages.Offered` | main.py:132-133 | a select box over the session names returns `None` exactly when it has no option, otherwise one of its options, and any option can be returned (also main.py:164-165) |
| `Pages.SelectRows` | main.py:134 | keeps exactly the rows whose session equals the selection (Python `==`), with their multiplicities; its first element is the first such row of the listing |
| `Pages.EditTarget` | main.py:134-140 | the form is prefilled from the first row of the listing whose session equals the selection, and from none exactly when no row has it |
| `Pages.UpdateDecision` | main.py:126-147 | the page shows nothing exactly for an empty listing; finds no row exactly when no session equals the selection; reaches `update_data` exactly when the first matching row's status is one of the three, and stops on the ValueError exactly when it is not |
| `Pages.UntouchedFormCopiesFirstRow` | main.py:134-153 | submitting the form unchanged writes the first matching row's values (its status read back through the select box) to every row with that session name |
| `Pages.UpdatePageReachesUpdate` | main.py:132-147 | on a well-formed non-empty table, whatever the select box returns, the page reaches `update_data` |
| `Pages.PermutationKeepsWellFormed` | main.py:126 | a listing in another order is well formed whenever the table is |
| `Pages.PermutationKeepsNames` | main.py:126-132 | a listing in another order holds the same session names |
| `Pages.UpdatePage` | main.py:124-154 | writes the new values to every row keyed by the selection, exactly when `UpdateDecision` of the listing says so; otherwise nothing changes; keeps `WellFormed` and, on a well-formed non-empty table, always updates |
| `Pages.DeletePage` | main.py:156-168 | deletes every row keyed by the selection exactly when the listing is non-empty; a selected name disappears from the names and no other name does; keeps `WellFormed` |

## Left out

- Streamlit page setup, CSS, the sidebar menu, columns, widgets and the success and error
  messages are presentation. Only the values the widgets return are modelled, as parameters.
- The pandas DataFrames and the Plotly pie chart are rendering. Only the counting rule of
  `value_counts` is modelled.
- Opening, committing and closing the sqlite3 connection is I/O. Storage failures other than
  a missing table (for example a disk error) are not modelled.
- `pd.to_datetime(...).date()` only converts the stored date back to a date object, so dates
  stay opaque values.
- Row order: SQL promises none. `view_all_data` is specified by multiset. The order that
  `value_counts` uses for its entries is not part of `StatusCounts`'s contract.
- Column types other than `session`: the UI never stores NULL in them, so they are plain
  strings and dates.
- The entry-point guard at main.py:171 compares `__name__` with `'_main_'`. A script runs as
  module `__main__`, both directly and under `streamlit run`, so the guard never holds and no
  path in the repository calls `main()`: as written, no page ever runs. The page methods model
  `main()` as it would behave if it were called. The guard itself is process wiring and is not
  modelled.
- Update and delete report success even when no row matched. The model states that outcome
  (`UpdateNoMatch`, `DeleteNoMatch`) but does not change it.
- Runs in which a page's button is not pressed only render widgets and leave the table
  unchanged, so each page method models the run in which its button is pressed.

=== FILE: pages.dfy ===
/**
  The logic inside the four pages of the tracker (Create, Read, Update, Delete).  Each page first
  makes sure the table exists, then reads or writes through the store.  Widget values (text
  boxes, select boxes, date pickers) are parameters; each page method models the run in which
  its button was pressed.
 */
module Pages {
  import opened Records
  import opened Table
  import opened Store

  // ---------------------------------------------------------------- Create page

  /** The Create page's guard: Python truthiness of the three text fields, i.e. none is empty. */
  predicate CreateGuard(session: string, subject: string, description: string): (ok: bool)
    ensures ok <==> "" !in [session, subject, description]
  {
    session != "" && subject != "" && description != ""
  }

  /**
    What every row written through the pages looks like: a non-NULL, non-empty session name
    and one of the three statuses.  Subject and description may be empty after an update,
    since the Update page has no guard.
   */
  predicate WellFormed(rows: seq<Row>)
  {
    forall i :: 0 <= i < |rows| ==>
      rows[i].session.Some? && rows[i].session.value != "" && KnownStatus(rows[i].status)
  }

  /** A row the Create page inserts keeps the table well formed. */
  lemma InsertKeepsWellFormed(rows: seq<Row>, session: string, subject: string, description: string, status: Status, date: Date)
    requires WellFormed(rows)
    requires CreateGuard(session, subject, description)
    ensures WellFormed(InsertRow(rows, Row(Some(session), subject, description, status.Label(), date)))
  {
  }

  /** An update that writes one of the three statuses keeps the table well formed. */
  lemma UpdateKeepsWellFormed(rows: seq<Row>, key: Option<string>, subject: string, description: string, status: Status, date: Date)
    requires WellFormed(rows)
    ensures WellFormed(UpdateRows(rows, key, subject, description, status.Label(), date))
  {
  }

  /** A delete keeps the table well formed: it only removes rows. */
  lemma DeleteKeepsWellFormed(rows: seq<Row>, key: Option<string>)
    requires WellFormed(rows)
    ensures WellFormed(DeleteRows(rows, key))
  {
    var out := DeleteRows(rows, key);
    forall i | 0 <= i < |out|
      ensures out[i].session.Some? && out[i].session.value != "" && KnownStatus(out[i].status)
    {
      assert multiset(out)[out[i]] > 0;
      assert out[i] in rows;
    }
  }

  /**
    The Create page: adds the session exactly when session name, subject and description are all
    filled in; otherwise it reports an error and the table is unchanged.
   */
  method CreatePage(db: SessionStore, session: string, subject: string, description: string, status: Status, date: Date)
    returns (added: bool)
    requires db.Valid()
    modifies db
    ensures db.Valid() && db.hasTable
    ensures added <==> CreateGuard(session, subject, description)
    ensures db.rows == if added then InsertRow(old(db.rows), Row(Some(session), subject, description, status.Label(), date))
                       else old(db.rows)
    ensures WellFormed(old(db.rows)) ==> WellFormed(db.rows)
  {
    db.CreateTable();
    added := false;
    if session != "" && subject != "" && description != "" {
      ghost var before := db.rows;
      added := db.AddData(Some(session), subject, description, status.Label(), date);
      if WellFormed(before) {
        InsertKeepsWellFormed(before, session, subject, description, status, date);
      }
    }
  }

  // ---------------------------------------------------------------- Read page

  /** The `value_counts` table of the Status column: (status text, count) pairs. */
  type Tally = seq<(string, nat)>

  /** The reference count: how many rows carry status text `s`. */
  function CountStatus(rows: seq<Row>, s: string): nat
  {
    if rows == [] then 0
    else (if rows[0].status == s then 1 else 0) + CountStatus(rows[1..], s)
  }

  predicate DistinctKeys(t: Tally)
  {
    forall i, j :: 0 <= i < j < |t| ==> t[i].0 != t[j].0
  }

  function Keys(t: Tally): set<string>
  {
    set i | 0 <= i < |t| :: t[i].0
  }

  /** The count recorded for `s`, or 0 when `s` is not a key. */
  function Lookup(t: Tally, s: string): nat
  {
    if t == [] then 0 else if t[0].0 == s then t[0].1 else Lookup(t[1..], s)
  }

  /** The sum of all counts. */
  function Total(t: Tally): nat
  {
    if t == [] then 0 else t[0].1 + Total(t[1..])
  }

  lemma {:induction false} LookupAt(t: Tally, i: nat)
    requires DistinctKeys(t) && i < |t|
    ensures Lookup(t, t[i].0) == t[i].1
  {
    if i > 0 {
      LookupAt(t[1..], i - 1);
    }
  }

  lemma {:induction false} LookupAbsent(t: Tally, s: string)
    requires s !in Keys(t)
    ensures Lookup(t, s) == 0
  {
    if t != [] {
      assert t[0].0 in Keys(t);
      assert Keys(t[1..]) <= Keys(t) by {
        forall k | k in Keys(t[1..]) ensures k in Keys(t) {
          var i :| 0 <= i < |t[1..]| && t[1..][i].0 == k;
          assert t[i + 1].0 == k;
        }
      }
      LookupAbsent(t[1..], s);
    }
  }

  /** Counts one more row with status `s`: the entry for `s` grows by one, or a new entry (s, 1) appears. */
  function Bump(t: Tally, s: string): Tally
  {
    if t == [] then [(s, 1)]
    else if t[0].0 == s then [(s, t[0].1 + 1)] + t[1..]
    else [t[0]] + Bump(t[1..], s)
  }

  lemma KeysCons(x: (string, nat), t: Tally)
    ensures Keys([x] + t) == {x.0} + Keys(t)
  {
    var r := [x] + t;
    forall k | k in Keys(r) ensures k in {x.0} + Keys(t) {
      var i :| 0 <= i < |r| && r[i].0 == k;
      if i > 0 { assert t[i - 1].0 == k; }
    }
    forall k | k in Keys(t) ensures k in Keys(r) {
      var i :| 0 <= i < |t| && t[i].0 == k;
      assert r[i + 1].0 == k;
    }
    assert r[0].0 in Keys(r);
  }

  lemma {:induction false} BumpKeys(t: Tally, s: string)
    ensures Keys(Bump(t, s)) == Keys(t) + {s}
  {
    if t == [] {
      KeysCons((s, 1), []);
    } else {
      assert t == [t[0]] + t[1..];
      KeysCons(t[0], t[1..]);
      if t[0].0 == s {
        KeysCons((s, t[0].1 + 1), t[1..]);
      } else {
        BumpKeys(t[1..], s);
        KeysCons(t[0], Bump(t[1..], s));
      }
    }
  }

  lemma {:induction false} BumpDistinct(t: Tally, s: string)
    requires DistinctKeys(t)
    ensures DistinctKeys(Bump(t, s))
  {
    if t != [] && t[0].0 != s {
      var tail := t[1..];
      var rest := Bump(tail, s);
      BumpDistinct(tail, s);
      BumpKeys(tail, s);
      var r := Bump(t, s);
      assert r == [t[0]] + rest;
      forall j | 0 < j < |r| ensures r[0].0 != r[j].0 {
        assert rest[j - 1].0 in Keys(rest);
        if r[j].0 != s {
          var m :| 0 <= m < |tail| && tail[m].0 == r[j].0;
          assert t[m + 1].0 == r[j].0;
        }
      }
    }
  }

  lemma {:induction false} BumpLookup(t: Tally, s: string, k: string)
    ensures Lookup(Bump(t, s), k) == Lookup(t, k) + (if k == s then 1 else 0)
  {
    if t != [] && t[0].0 != s {
      BumpLookup(t[1..], s, k);
    }
  }

  lemma {:induction false} BumpTotal(t: Tally, s: string)
    ensures Total(Bump(t, s)) == Total(t) + 1
    ensures (forall i :: 0 <= i < |t| ==> t[i].1 > 0) ==> forall i :: 0 <= i < |Bump(t, s)| ==> Bump(t, s)[i].1 > 0
  {
    if t != [] {
      if t[0].0 == s {
        assert Bump(t, s)[1..] == t[1..];
      } else {
        BumpTotal(t[1..], s);
        assert Bump(t, s)[1..] == Bump(t[1..], s);
      }
    }
  }

  /**
    `df['Status'].value_counts()`: one entry per distinct status text in the rows, its count being
    the number of rows with that status; every count is positive and the counts add up to the
    number of rows.  The order of the entries is not part of the contract.
   */
  function StatusCounts(rows: seq<Row>): (t: Tally)
    ensures DistinctKeys(t)
    ensures forall i :: 0 <= i < |t| ==> t[i].1 > 0
    ensures forall s :: Lookup(t, s) == CountStatus(rows, s)
    ensures Total(t) == |rows|
  {
    if rows == [] then []
    else
      var rest := StatusCounts(rows[1..]);
      BumpDistinct(rest, rows[0].status);
      BumpTotal(rest, rows[0].status);
      forall k ensures Lookup(Bump(rest, rows[0].status), k) == CountStatus(rows, k) {
        BumpLookup(rest, rows[0].status, k);
      }
      Bump(rest, rows[0].status)
  }

  /** A status is a key of the count table exactly when some row carries it, with its exact count. */
  lemma StatusCountsKeys(rows: seq<Row>, s: string)
    ensures s in Keys(StatusCounts(rows)) <==> CountStatus(rows, s) > 0
    ensures forall i :: 0 <= i < |StatusCounts(rows)| ==> StatusCounts(rows)[i].1 == CountStatus(rows, StatusCounts(rows)[i].0)
  {
    var t := StatusCounts(rows);
    forall i | 0 <= i < |t| ensures t[i].1 == CountStatus(rows, t[i].0) {
      LookupAt(t, i);
    }
    if s in Keys(t) {
      var i :| 0 <= i < |t| && t[i].0 == s;
      LookupAt(t, i);
    } else {
      LookupAbsent(t, s);
    }
  }

  lemma {:induction false} CountStatusAppend(a: seq<Row>, b: seq<Row>, s: string)
    ensures CountStatus(a + b, s) == CountStatus(a, s) + CountStatus(b, s)
  {
    if a != [] {
      assert (a + b)[1..] == a[1..] + b;
      CountStatusAppend(a[1..], b, s);
    } else {
      assert a + b == b;
    }
  }

  /** Taking the element at `j` out of `b`: what remains, as a multiset and as a count. */
  lemma RemoveAt(b: seq<Row>, j: nat, s: string)
    requires j < |b|
    ensures multiset(b[..j] + b[j + 1..]) == multiset(b) - multiset{b[j]}
    ensures CountStatus(b, s) == CountStatus(b[..j] + b[j + 1..], s) + (if b[j].status == s then 1 else 0)
  {
    var left, right := b[..j], b[j + 1..];
    assert b == left + ([b[j]] + right);
    CountStatusAppend(left, [b[j]] + right, s);
    CountStatusAppend(left, right, s);
    assert ([b[j]] + right)[1..] == right;
  }

  /** The count of a status does not depend on the order of the listing, only on its rows. */
  lemma {:induction false} CountStatusPermutation(a: seq<Row>, b: seq<Row>, s: string)
    requires multiset(a) == multiset(b)
    ensures CountStatus(a, s) == CountStatus(b, s)
  {
    if a == [] {
      assert |b| == |multiset(b)| == 0;
    } else {
      assert a[0] in multiset(b);
      var j :| 0 <= j < |b| && b[j] == a[0];
      RemoveAt(b, j, s);
      assert a == [a[0]] + a[1..];
      assert multiset(a[1..]) == multiset(a) - multiset{a[0]};
      CountStatusPermutation(a[1..], b[..j] + b[j + 1..], s);
    }
  }

  /**
    The Read page: when the listing is non-empty it shows all rows and the per-status counts
    of that listing; otherwise "No sessions found".  Nothing is written.
   */
  method ReadPage(db: SessionStore) returns (shown: Option<seq<Row>>, counts: Tally)
    requires db.Valid()
    modifies db
    ensures db.Valid() && db.hasTable && db.rows == old(db.rows)
    ensures shown.Some? <==> db.rows != []
    ensures shown.Some? ==> multiset(shown.value) == multiset(db.rows) && counts == StatusCounts(shown.value)
    ensures shown.None? ==> counts == []
    ensures forall s :: Lookup(counts, s) == CountStatus(db.rows, s)
  {
    db.CreateTable();
    var result := db.ViewAllData();
    shown, counts := None, [];
    if result.Some? && result.value != [] {
      shown := result;
      counts := StatusCounts(result.value);
      forall s ensures Lookup(counts, s) == CountStatus(db.rows, s) {
        CountStatusPermutation(result.value, db.rows, s);
      }
    }
  }

  // ---------------------------------------------------------------- Update and Delete pages

  /**
    What the session select box can return when its options are the names `options` (the result
    of `view_unique_sessions`): `None` when there are none, otherwise one of them.
   */
  predicate Offered(options: set<string>, selected: Option<string>): (ok: bool)
    ensures ok ==> (selected.None? <==> options == {})
    ensures ok && selected.Some? ==> selected.value in options
    ensures selected.Some? && selected.value in options ==> ok
  {
    if options == {} then selected == None else selected.Some? && selected.value in options
  }

  /**
    `[i for i in result if i[0] == selected_session]`: the rows whose session equals the
    selection under Python `==`, so a `None` selection picks the NULL-session rows.  Order is kept,
    so the first element is the first such row of the listing.
   */
  function SelectRows(rows: seq<Row>, selected: Option<string>): (out: seq<Row>)
    ensures forall r :: multiset(out)[r] == if r.session == selected then multiset(rows)[r] else 0
    ensures out != [] ==> exists i :: (0 <= i < |rows| && rows[i] == out[0] &&
      forall j :: 0 <= j < i ==> rows[j].session != selected)
  {
    if rows == [] then []
    else
      assert rows == [rows[0]] + rows[1..];
      var rest := SelectRows(rows[1..], selected);
      if rows[0].session == selected then [rows[0]] + rest
      else
        assert rest != [] ==> exists i :: (0 <= i < |rows| && rows[i] == rest[0] &&
          forall j :: 0 <= j < i ==> rows[j].session != selected) by {
          if rest != [] {
            var k :| 0 <= k < |rows[1..]| && rows[1..][k] == rest[0] &&
              forall j :: 0 <= j < k ==> rows[1..][j].session != selected;
            assert rows[k + 1] == rest[0];
            forall j | 0 <= j < k + 1 ensures rows[j].session != selected {
              if j > 0 { assert rows[j] == rows[1..][j - 1]; }
            }
          }
        }
        rest
  }

  /**
    The row whose values prefill the Update form (`session_result[0]`): the first row of the
    listing whose session equals the selection, or `None` when no row does.
   */
  function EditTarget(rows: seq<Row>, selected: Option<string>): (t: Option<Row>)
    ensures t.None? <==> forall i :: 0 <= i < |rows| ==> rows[i].session != selected
    ensures t.Some? ==> (t.value.session == selected &&
      exists i :: 0 <= i < |rows| && rows[i] == t.value && forall j :: 0 <= j < i ==> rows[j].session != selected)
  {
    var matching := SelectRows(rows, selected);
    if matching == [] then
      assert forall i :: 0 <= i < |rows| ==> rows[i].session != selected by {
        forall i | 0 <= i < |rows| ensures rows[i].session != selected {
          assert multiset(rows)[rows[i]] > 0;
        }
      }
      None
    else
      assert multiset(matching)[matching[0]] > 0;
      Some(matching[0])
  }

  datatype UpdateOutcome =
    | NothingShown    // the listing is empty: the page shows no form
    | NoMatch         // no row equals the selection: no form
    | UnknownStatus   // the stored status is not one of the three: `.index` raises ValueError
    | Updated         // `update_data` ran with the selected row's session as key

  /** What the Update page does for a listing and a selection. */
  function UpdateDecision(rows: seq<Row>, selected: Option<string>): (o: UpdateOutcome)
    ensures o == Updated <==>
      rows != [] && EditTarget(rows, selected).Some? && KnownStatus(EditTarget(rows, selected).value.status)
    ensures o == UnknownStatus <==>
      rows != [] && EditTarget(rows, selected).Some? && !KnownStatus(EditTarget(rows, selected).value.status)
    ensures o == NoMatch <==> rows != [] && forall i :: 0 <= i < |rows| ==> rows[i].session != selected
    ensures o == NothingShown <==> rows == []
  {
    if rows == [] then NothingShown
    else match EditTarget(rows, selected)
      case None => NoMatch
      case Some(t) => if StatusIndex(t.status).None? then UnknownStatus else Updated
  }

  /**
    Submitting the Update form untouched writes back the first matching row's own values (its
    status read back through the select box), so every row sharing that session name becomes a
    copy of the first one.
   */
  lemma UntouchedFormCopiesFirstRow(rows: seq<Row>, selected: Option<string>, i: nat)
    requires UpdateDecision(rows, selected) == Updated
    requires i < |rows| && Matches(rows[i], selected)
    ensures var t := EditTarget(rows, selected).value;
            ParseStatus(t.status).Some? &&
            UpdateRows(rows, selected, t.subject, t.description, ParseStatus(t.status).value.Label(), t.date)[i] == t
  {
  }

  /**
    On a well-formed non-empty table, with a selection the select box can return, the Update page
    always reaches `update_data`: the selection names a stored row and its status is one of three.
   */
  lemma UpdatePageReachesUpdate(rows: seq<Row>, selected: Option<string>)
    requires WellFormed(rows) && rows != []
    requires Offered(NameSet(rows), selected)
    ensures selected.Some?
    ensures UpdateDecision(rows, selected) == Updated
  {
    assert rows[0].session.value in NameSet(rows);
    var n := selected.value;
    assert n in NameSet(rows);
    var i :| 0 <= i < |rows| && rows[i].session.Some? && rows[i].session.value != "" && rows[i].session.value == n;
    var t := EditTarget(rows, selected);
    var k :| 0 <= k < |rows| && rows[k] == t.value && forall j :: 0 <= j < k ==> rows[j].session != selected;
    assert KnownStatus(rows[k].status);
  }

  /** A listing in another order holds the same rows, so it is just as well formed. */
  lemma PermutationKeepsWellFormed(a: seq<Row>, b: seq<Row>)
    requires multiset(a) == multiset(b) && WellFormed(a)
    ensures WellFormed(b)
  {
    forall i | 0 <= i < |b|
      ensures b[i].session.Some? && b[i].session.value != "" && KnownStatus(b[i].status)
    {
      assert multiset(a)[b[i]] > 0;
      assert b[i] in a;
    }
  }

  /** A listing in another order holds the same session names. */
  lemma PermutationKeepsNames(a: seq<Row>, b: seq<Row>)
    requires multiset(a) == multiset(b)
    ensures NameSet(a) == NameSet(b)
  {
    forall n | n in NameSet(a) ensures n in NameSet(b) {
      var i :| 0 <= i < |a| && a[i].session.Some? && a[i].session.value != "" && a[i].session.value == n;
      assert multiset(b)[a[i]] > 0;
      assert a[i] in b;
      var j :| 0 <= j < |b| && b[j] == a[i];
    }
    forall n | n in NameSet(b) ensures n in NameSet(a) {
      var i :| 0 <= i < |b| && b[i].session.Some? && b[i].session.value != "" && b[i].session.value == n;
      assert multiset(a)[b[i]] > 0;
      assert b[i] in a;
      var j :| 0 <= j < |a| && a[j] == b[i];
    }
  }

  /**
    The Update page: prefills the form from the first row of the listing keyed by the selection,
    then writes the new subject, description, status and date to EVERY row with that session name.
    `listing` is the result of `view_all_data`, whose order SQL does not promise.
   */
  method UpdatePage(db: SessionStore, selected: Option<string>, newSubject: string, newDescription: string, newStatus: Status, newDate: Date)
    returns (outcome: UpdateOutcome, listing: seq<Row>)
    requires db.Valid()
    requires Offered(NameSet(db.rows), selected)
    modifies db
    ensures db.Valid() && db.hasTable
    ensures multiset(listing) == multiset(old(db.rows))
    ensures outcome == UpdateDecision(listing, selected)
    ensures db.rows == if outcome == Updated then UpdateRows(old(db.rows), selected, newSubject, newDescription, newStatus.Label(), newDate)
                       else old(db.rows)
    ensures WellFormed(old(db.rows)) ==> WellFormed(db.rows)
    ensures WellFormed(old(db.rows)) && old(db.rows) != [] ==> outcome == Updated
  {
    db.CreateTable();
    var result := db.ViewAllData();
    ghost var before := db.rows;
    listing := result.value;
    outcome := NothingShown;
    if listing != [] {
      var target := EditTarget(listing, selected);
      if target.None? {
        outcome := NoMatch;
      } else if StatusIndex(target.value.status).None? {
        outcome := UnknownStatus;
      } else {
        var ok := db.UpdateData(target.value.session, newSubject, newDescription, newStatus.Label(), newDate);
        outcome := Updated;
        if WellFormed(before) {
          UpdateKeepsWellFormed(before, selected, newSubject, newDescription, newStatus, newDate);
        }
      }
      if WellFormed(before) {
        PermutationKeepsWellFormed(before, listing);
        PermutationKeepsNames(before, listing);
        UpdatePageReachesUpdate(listing, selected);
      }
    }
  }

  /**
    The Delete page: when the listing is non-empty it deletes every row keyed by the selection
    (nothing, when the selection is `None`); otherwise it shows nothing.
   */
  method DeletePage(db: SessionStore, selected: Option<string>) returns (deleted: bool)
    requires db.Valid()
    requires Offered(NameSet(db.rows), selected)
    modifies db
    ensures db.Valid() && db.hasTable
    ensures deleted <==> old(db.rows) != []
    ensures db.rows == if deleted then DeleteRows(old(db.rows), selected) else old(db.rows)
    ensures WellFormed(old(db.rows)) ==> WellFormed(db.rows)
    ensures deleted && selected.Some? ==> NameSet(db.rows) == NameSet(old(db.rows)) - {selected.value}
  {
    db.CreateTable();
    var result := db.ViewAllData();
    deleted := false;
    if result.Some? && result.value != [] {
      ghost var before := db.rows;
      var ok := db.DeleteData(selected);
      deleted := true;
      DeleteRemovesName(before, selected);
      if WellFormed(before) {
        DeleteKeepsWellFormed(before, selected);
      }
    }
  }
}

=== FILE: records.dfy ===
/**
  The values stored by the study-session tracker: one row of the table
  `sessionstable` and the three study statuses the forms offer.
 */
module Records {

  datatype Option<+T> = None | Some(value: T)

  /** A calendar date.  No date arithmetic is ever done, so it is only compared for equality. */
  datatype Date = Date(year: int, month: int, day: int)

  /**
    One row of `sessionstable(session, subject, description, session_status, session_date)`.
    The `session` column may hold SQL NULL (`None`), which the distinct-name query filters out;
    `status` is the TEXT column, which the table itself does not restrict.
   */
  datatype Row = Row(session: Option<string>, subject: string, description: string, status: string, date: Date)

  /** The three statuses offered by both status select boxes. */
  datatype Status = Planned | InProgress | Completed
  {
    /** The text the select box shows and the table stores. */
    function Label(): string
    {
      match this
      case Planned => "Planned"
      case InProgress => "In Progress"
      case Completed => "Completed"
    }
  }

  /** The option list of the status select boxes, in display order. */
  const StatusOptions: seq<string> := ["Planned", "In Progress", "Completed"]

  /** True when a stored status text is one the forms can show. */
  predicate KnownStatus(text: string)
  {
    text in StatusOptions
  }

  /** `s.index(x)`: the first position of `x` in `s`, or `None` where Python raises ValueError. */
  function IndexOf<T(==)>(s: seq<T>, x: T): (r: Option<nat>)
    ensures r.None? <==> x !in s
    ensures r.Some? ==> r.value < |s| && s[r.value] == x && x !in s[..r.value]
  {
    if s == [] then None
    else if s[0] == x then Some(0)
    else match IndexOf(s[1..], x)
      case None => None
      case Some(i) =>
        assert s[..i + 1] == [s[0]] + s[1..][..i];
        Some(i + 1)
  }

  /** The preselected index of the Update form's status box, found from the stored text. */
  function StatusIndex(text: string): (r: Option<nat>)
    ensures r.Some? <==> KnownStatus(text)
    ensures r.Some? ==> r.value < 3 && StatusOptions[r.value] == text
  {
    IndexOf(StatusOptions, text)
  }

  /** The status a stored text stands for, when it is one of the three. */
  function ParseStatus(text: string): (r: Option<Status>)
    ensures r.Some? <==> KnownStatus(text)
    ensures r.Some? ==> r.value.Label() == text
  {
    if text == "Planned" then Some(Planned)
    else if text == "In Progress" then Some(InProgress)
    else if text == "Completed" then Some(Completed)
    else None
  }

  /** Every status the forms write is one the Update form can show again, at its own position. */
  lemma LabelIsKnown(st: Status)
    ensures KnownStatus(st.Label())
    ensures ParseStatus(st.Label()) == Some(st)
    ensures StatusIndex(st.Label()) == Some(match st case Planned => 0 case InProgress => 1 case Completed => 2)
  {
  }
}

=== FILE: store.dfy ===
/**
  The session store: the SQLite database file holding `sessionstable`, and the six functions
  that open it and run one statement.  Each function becomes a method of `SessionStore`.
  For `AddData`, `UpdateData`, `DeleteData` and `ViewUniqueSessions` the statement is the
  matching function of module Table; `CreateTable` only makes the table exist and keeps its
  rows, and `ViewAllData` returns the rows themselves, in no promised order.

  A database file without the table is modelled too, because `view_all_data` turns the
  resulting "no such table" error into `None`.  The other functions do not catch it: they
  raise without changing anything, which the write methods report as `ok == false` and
  `ViewUniqueSessions` as `None`.
 */
module Store {
  import opened Records
  import opened Table

  class SessionStore {
    /** Whether `sessionstable` exists in the database file. */
    var hasTable: bool
    /** The rows of `sessionstable`, in the order SQLite happens to keep them. */
    var rows: seq<Row>

    /** A database file without the table holds no rows, so an error result hides none. */
    ghost predicate Valid()
      reads this
    {
      !hasTable ==> rows == []
    }

    /** A database file in which the table has not been created yet. */
    constructor ()
      ensures Valid() && !hasTable && rows == []
    {
      hasTable := false;
      rows := [];
    }

    /** `create_table`: `CREATE TABLE IF NOT EXISTS`; an existing table keeps all its rows. */
    method CreateTable()
      requires Valid()
      modifies this
      ensures Valid() && hasTable
      ensures rows == old(rows)
    {
      hasTable := true;
    }

    /** `add_data`: appends exactly one row holding the five given values. */
    method AddData(session: Option<string>, subject: string, description: string, status: string, date: Date)
      returns (ok: bool)
      requires Valid()
      modifies this
      ensures Valid() && hasTable == old(hasTable)
      ensures ok == hasTable
      ensures rows == if ok then InsertRow(old(rows), Row(session, subject, description, status, date)) else old(rows)
    {
      ok := hasTable;
      if ok {
        rows := InsertRow(rows, Row(session, subject, description, status, date));
      }
    }

    /**
      `view_all_data`: every row, in no promised order, or `None` when the query fails
      (the `sqlite3.Error` it catches).
     */
    method ViewAllData() returns (result: Option<seq<Row>>)
      requires Valid()
      ensures result.Some? <==> hasTable
      ensures result.Some? ==> multiset(result.value) == multiset(rows)
      ensures result.None? ==> rows == []
    {
      if hasTable {
        result := Some(rows);
      } else {
        result := None;
      }
    }

    /** `update_data`: the four non-key columns of every row keyed `key` get the new values. */
    method UpdateData(key: Option<string>, subject: string, description: string, status: string, date: Date)
      returns (ok: bool)
      requires Valid()
      modifies this
      ensures Valid() && hasTable == old(hasTable)
      ensures ok == hasTable
      ensures rows == if ok then UpdateRows(old(rows), key, subject, description, status, date) else old(rows)
    {
      ok := hasTable;
      if ok {
        rows := UpdateRows(rows, key, subject, description, status, date);
      }
    }

    /** `delete_data`: every row keyed `key` is removed. */
    method DeleteData(key: Option<string>) returns (ok: bool)
      requires Valid()
      modifies this
      ensures Valid() && hasTable == old(hasTable)
      ensures ok == hasTable
      ensures rows == if ok then DeleteRows(old(rows), key) else old(rows)
    {
      ok := hasTable;
      if ok {
        rows := DeleteRows(rows, key);
      }
    }

    /**
      `view_unique_sessions`: each non-NULL, non-empty session name once, in no promised
      order.  The source catches no error here: `None` stands for the `sqlite3.OperationalError`
      it raises when the table is missing.
     */
    method ViewUniqueSessions() returns (result: Option<seq<string>>)
      requires Valid()
      ensures result.Some? <==> hasTable
      ensures result.Some? ==> NoDuplicates(result.value)
      ensures result.Some? ==> forall n :: n in result.value <==> n in NameSet(rows)
      ensures result.None? ==> rows == []
    {
      if hasTable {
        result := Some(UniqueSessions(rows));
      } else {
        result := None;
      }
    }
  }

  /**
    An end-to-end run: insert the session "Math HW", mark it Completed a day later, delete it.
    Returns the table's rows after each of the three steps.
   */
  method MathHomeworkScenario() returns (afterInsert: seq<Row>, afterUpdate: seq<Row>, afterDelete: seq<Row>)
    ensures afterInsert == [Row(Some("Math HW"), "Math", "Chapter 3 problems", "Planned", Date(2024, 1, 10))]
    ensures afterUpdate == [Row(Some("Math HW"), "Math", "Chapter 3 problems", "Completed", Date(2024, 1, 11))]
    ensures afterDelete == []
  {
    var db := new SessionStore();
    db.CreateTable();
    var ok := db.AddData(Some("Math HW"), "Math", "Chapter 3 problems", Planned.Label(), Date(2024, 1, 10));
    afterInsert := db.rows;
    ok := db.UpdateData(Some("Math HW"), "Math", "Chapter 3 problems", Completed.Label(), Date(2024, 1, 11));
    afterUpdate := db.rows;
    assert afterUpdate[0] == Row(Some("Math HW"), "Math", "Chapter 3 problems", "Completed", Date(2024, 1, 11));
    ok := db.DeleteData(Some("Math HW"));
    afterDelete := db.rows;
    assert MatchCount(afterUpdate, Some("Math HW")) == 1;
  }
}

=== FILE: table.dfy ===
/**
  What each SQL statement of the session store does to the rows of `sessionstable`,
  as functions from the rows before to the rows (or names) after.  SQL returns rows
  in no specified order, so every read result is stated as a set or a multiset.
 */
module Table {
  import opened Records

  /**
    `WHERE session = ?`: SQL equality never holds when either side is NULL, so a NULL key
    matches nothing and a row whose session is NULL is never matched.
   */
  predicate Matches(r: Row, key: Option<string>): (m: bool)
    ensures key.None? ==> !m
    ensures r.session.None? ==> !m
    ensures m ==> r.session.value == key.value
  {
    key.Some? && r.session == key
  }

  /** How many rows `WHERE session = key` selects. */
  function MatchCount(rows: seq<Row>, key: Option<string>): (n: nat)
    ensures n <= |rows|
    ensures n == 0 <==> forall i :: 0 <= i < |rows| ==> !Matches(rows[i], key)
  {
    if rows == [] then 0
    else (if Matches(rows[0], key) then 1 else 0) + MatchCount(rows[1..], key)
  }

  /** `INSERT INTO sessionstable VALUES (...)`: the table gains exactly the one new row. */
  function InsertRow(rows: seq<Row>, r: Row): (out: seq<Row>)
    ensures multiset(out) == multiset(rows) + multiset{r}
    ensures |out| == |rows| + 1
  {
    rows + [r]
  }

  /** `SET subject=?, description=?, session_status=?, session_date=?` applied to one row. */
  function Assign(r: Row, subject: string, description: string, status: string, date: Date): (out: Row)
    ensures out.session == r.session
    ensures out.subject == subject && out.description == description && out.status == status && out.date == date
    ensures out == r <==> (r.subject == subject && r.description == description && r.status == status && r.date == date)
  {
    r.(subject := subject, description := description, status := status, date := date)
  }

  /**
    `UPDATE sessionstable SET subject=?, description=?, session_status=?, session_date=? WHERE session=?`:
    every matching row gets the four new values and keeps its session; every other row is untouched.
   */
  function UpdateRows(rows: seq<Row>, key: Option<string>, subject: string, description: string, status: string, date: Date): (out: seq<Row>)
    ensures |out| == |rows|
    ensures forall i :: 0 <= i < |rows| ==> out[i].session == rows[i].session
    ensures forall i :: 0 <= i < |rows| && Matches(rows[i], key) ==>
      out[i].subject == subject && out[i].description == description && out[i].status == status && out[i].date == date
    ensures forall i :: 0 <= i < |rows| && !Matches(rows[i], key) ==> out[i] == rows[i]
  {
    if rows == [] then []
    else
      var head := if Matches(rows[0], key) then Assign(rows[0], subject, description, status, date) else rows[0];
      [head] + UpdateRows(rows[1..], key, subject, description, status, date)
  }

  /**
    `DELETE FROM sessionstable WHERE session=?`: no matching row is left, every other row keeps
    its multiplicity, and the table shrinks by exactly the number of matches.
   */
  function DeleteRows(rows: seq<Row>, key: Option<string>): (out: seq<Row>)
    ensures forall r {:trigger multiset(out)[r]} :: multiset(out)[r] == if Matches(r, key) then 0 else multiset(rows)[r]
    ensures |out| == |rows| - MatchCount(rows, key)
  {
    if rows == [] then []
    else
      assert rows == [rows[0]] + rows[1..];
      if Matches(rows[0], key) then DeleteRows(rows[1..], key)
      else [rows[0]] + DeleteRows(rows[1..], key)
  }

  /** The non-NULL, non-empty session names occurring in the table. */
  function NameSet(rows: seq<Row>): (names: set<string>)
    ensures "" !in names
    ensures forall n :: n in names ==> exists i :: 0 <= i < |rows| && rows[i].session == Some(n)
    ensures forall i :: 0 <= i < |rows| && rows[i].session.Some? && rows[i].session.value != "" ==>
      rows[i].session.value in names
  {
    set i | 0 <= i < |rows| && rows[i].session.Some? && rows[i].session.value != "" :: rows[i].session.value
  }

  predicate NoDuplicates<T(==)>(s: seq<T>)
  {
    forall i, j :: 0 <= i < j < |s| ==> s[i] != s[j]
  }

  lemma NameSetCons(rows: seq<Row>)
    requires rows != []
    ensures NameSet(rows) == NameSet(rows[1..]) +
      (if rows[0].session.Some? && rows[0].session.value != "" then {rows[0].session.value} else {})
  {
  }

  /**
    `SELECT DISTINCT session FROM sessionstable WHERE session IS NOT NULL AND session != ""`:
    each non-NULL, non-empty name in the table exactly once, and nothing else.
   */
  function UniqueSessions(rows: seq<Row>): (names: seq<string>)
    ensures NoDuplicates(names)
    ensures forall n :: n in names <==> n in NameSet(rows)
  {
    if rows == [] then []
    else
      var rest := UniqueSessions(rows[1..]);
      NameSetCons(rows);
      match rows[0].session
      case Some(n) => if n != "" && n !in rest then [n] + rest else rest
      case None => rest
  }

  /** An update whose key matches no row leaves the table exactly as it was. */
  lemma UpdateNoMatch(rows: seq<Row>, key: Option<string>, subject: string, description: string, status: string, date: Date)
    requires MatchCount(rows, key) == 0
    ensures UpdateRows(rows, key, subject, description, status, date) == rows
  {
  }

  /** A delete whose key matches no row leaves the table exactly as it was. */
  lemma {:induction false} DeleteNoMatch(rows: seq<Row>, key: Option<string>)
    requires MatchCount(rows, key) == 0
    ensures DeleteRows(rows, key) == rows
  {
    if rows != [] {
      assert !Matches(rows[0], key);
      assert MatchCount(rows[1..], key) == 0;
      DeleteNoMatch(rows[1..], key);
      assert DeleteRows(rows, key) == [rows[0]] + DeleteRows(rows[1..], key);
      assert rows == [rows[0]] + rows[1..];
    }
  }

  /** Repeating an update changes nothing more. */
  lemma UpdateIdempotent(rows: seq<Row>, key: Option<string>, subject: string, description: string, status: string, date: Date)
    ensures var once := UpdateRows(rows, key, subject, description, status, date);
            UpdateRows(once, key, subject, description, status, date) == once
  {
  }

  /** After a delete no row matches its key, so repeating it changes nothing more. */
  lemma {:induction false} DeleteIdempotent(rows: seq<Row>, key: Option<string>)
    ensures MatchCount(DeleteRows(rows, key), key) == 0
    ensures DeleteRows(DeleteRows(rows, key), key) == DeleteRows(rows, key)
  {
    var once := DeleteRows(rows, key);
    forall i | 0 <= i < |once|
      ensures !Matches(once[i], key)
    {
      assert multiset(once)[once[i]] > 0;
    }
    DeleteNoMatch(once, key);
  }

  /** An update never changes the session column, so the listed names stay the same. */
  lemma UpdateKeepsNames(rows: seq<Row>, key: Option<string>, subject: string, description: string, status: string, date: Date)
    ensures NameSet(UpdateRows(rows, key, subject, description, status, date)) == NameSet(rows)
  {
  }

  /** Deleting a name removes it, and only it, from the listed names. */
  lemma DeleteRemovesName(rows: seq<Row>, key: Option<string>)
    ensures NameSet(DeleteRows(rows, key)) == NameSet(rows) - (if key.Some? then {key.value} else {})
  {
    var out := DeleteRows(rows, key);
    forall n | n in NameSet(out)
      ensures n in NameSet(rows) && key != Some(n)
    {
      var i :| 0 <= i < |out| && out[i].session.Some? && out[i].session.value != "" && out[i].session.value == n;
      assert multiset(out)[out[i]] > 0;
      assert out[i] in rows;
      var j :| 0 <= j < |rows| && rows[j] == out[i];
    }
    forall n | n in NameSet(rows) && key != Some(n)
      ensures n in NameSet(out)
    {
      var j :| 0 <= j < |rows| && rows[j].session.Some? && rows[j].session.value != "" && rows[j].session.value == n;
      assert multiset(rows)[rows[j]] > 0;
      assert multiset(out)[rows[j]] > 0;
      assert rows[j] in out;
      var i :| 0 <= i < |out| && out[i] == rows[j];
    }
  }

  /** An update followed by a delete of the same key leaves what the delete alone leaves. */
  lemma {:induction false} UpdateThenDelete(rows: seq<Row>, key: Option<string>, subject: string, description: string, status: string, date: Date)
    ensures DeleteRows(UpdateRows(rows, key, subject, description, status, date), key) == DeleteRows(rows, key)
  {
    if rows != [] {
      UpdateThenDelete(rows[1..], key, subject, description, status, date);
    }
  }

  /** Inserting a row keyed `k` and updating `k` leaves that row in the table with the new values. */
  lemma InsertThenUpdate(rows: seq<Row>, r: Row, subject: string, description: string, status: string, date: Date)
    requires r.session.Some?
    ensures Assign(r, subject, description, status, date) in UpdateRows(InsertRow(rows, r), r.session, subject, description, status, date)
  {
    var out := UpdateRows(InsertRow(rows, r), r.session, subject, description, status, date);
    assert out[|rows|] == Assign(r, subject, description, status, date);
  }
}
